=== FILE: README.md ===
# RnnToolBar: toolbar chrome state machine

This project models the toolbar of a React Native navigation host on Android
(`RnnToolBar`). The toolbar keeps its chrome in step with the screen on display:
background, title, title colour, visibility, and the action buttons in the options
menu. It has three parts, and the model covers all three:

1. **Synchronous style application** (`init`, `setStyle`, `resetBackground`,
   `resetTitleTextColor`, `update`). It is modelled as pure functions over an
   immutable `ToolbarState` and a `Screen` whose optional fields are `Option`s.
2. **The single-flight latch** (`mSetupToolbarTask`). It is a `Latch = Idle | InFlight(task)`.
   All the `setupToolbarButtonsAsync` entry points start a task only when the latch is `Idle`.
   Any other request is dropped.
3. **The button-setup task** (`SetupToolbarButtonsTask`).
   - `doInBackground` is `DoInBackground`/`ResolveIcons`. It builds a map from button id to resolved icon.
   - `onPostExecute` is `OnPostExecute`. It edits a menu, modelled as a sequence of `MenuItem`
     records, and releases the latch on the paths that reach it.

Modules, leaves first:
- `Wrappers`: `Option`, standing for Java `null`.
- `Screens`: `Button`, `Screen` and resolved `Drawable`s, plus the item-id encoding.
- `Menus`: the options menu as `seq<MenuItem>`. Its operations follow the Android menu contract:
  - `add` places an item after the last item whose order is not greater than its own.
  - `removeItem` removes the first item with that id.
  - `clear` empties the menu.
- `Toolbar`: the toolbar's fields, style application and latch.
- `ButtonsTask`: the resolution and apply phases.
- `Scenarios`: whole-lifecycle lemmas, plus two concrete navigations.

Inputs the code reads from its environment become parameters:
- whether an activity context exists, in each phase;
- the activity's menu (absent before the menu is created);
- whether the weakly referenced toolbar is still reachable;
- the icon pixel size;
- the background drawable and platform text colour the toolbar sees at construction.

Points of the code's behaviour a reader might not expect, which the model follows:
- **Latch kept when the activity is gone.** A null activity context at the start of
  `onPostExecute` (lines 200-203) returns with the latch still set. After that, every later
  request is dropped (`Scenarios.StuckWithoutActivity`).
- **Latch release needs a reachable toolbar.** The latch and the overflow tint are only
  touched when the weak reference still resolves (lines 208-211 and 244-252).
- **Where the title is set.** `setStyle` does not set the title; only `update` does.
- **Visibility needs an action bar.** Show and hide act on the support action bar of the
  activity the context provider returns (lines 106 and 113). Without one, nothing changes
  (`SetShown`). The model takes that activity to be the toolbar's own, whose action bar is
  this toolbar once `update` has bound it (line 157); see "## Left out".
- **Duplicate ids.** `removeItem` removes only the first matching item. So "exactly the old
  buttons' items are removed" holds when the menu's item ids are distinct
  (`RemoveButtonsExact`). In general, every item with another id is kept, in order
  (`RemoveButtonsFrame`).

## Model

| member | source | states |
|---|---|---|
| Screens.ItemIdInjective | android/app/src/main/java/com/reactnativenavigation/views/RnnToolBar.java:221-228 | Two buttons get the same menu item id only if their ids are equal. The item id is the join key between old and new buttons. |
| Toolbar.Init | android/app/src/main/java/com/reactnativenavigation/views/RnnToolBar.java:39-56 | A new toolbar is painted with the background it captured at construction and has no task pending. |
| Toolbar.FreshToolbarLook | android/app/src/main/java/com/reactnativenavigation/views/RnnToolBar.java:54-88 | On a toolbar as constructed, after any sequence of updates, updating for a screen looks as it would straight after construction. Without a screen colour, the background is the one read at construction. |
| Toolbar.ResetBackground | android/app/src/main/java/com/reactnativenavigation/views/RnnToolBar.java:82-84 | The background goes back to the drawable captured at construction. Nothing else changes. |
| Toolbar.SetScreens | android/app/src/main/java/com/reactnativenavigation/views/RnnToolBar.java:58-60 | The toolbar holds exactly the given screens. Nothing else changes. |
| Toolbar.OptionsMenuUsesFirstScreen | android/app/src/main/java/com/reactnativenavigation/views/RnnToolBar.java:90-92 | After `setScreens`, the options-menu request is for the first screen handed over, with a null old screen, subject to the latch. |
| Toolbar.SetShown | android/app/src/main/java/com/reactnativenavigation/views/RnnToolBar.java:105-117 | With an action bar, it is shown or hidden as asked. Without one, nothing changes. Only visibility is touched. |
| Toolbar.ResetTitleTextColor | android/app/src/main/java/com/reactnativenavigation/views/RnnToolBar.java:86-88 | The title colour goes back to the platform primary text colour. Nothing else changes. |
| Toolbar.SetStyle | android/app/src/main/java/com/reactnativenavigation/views/RnnToolBar.java:62-80 | Styling changes only background, title colour and visibility. Title, latch, screens and construction-time defaults are kept. |
| Toolbar.StyleBackground | android/app/src/main/java/com/reactnativenavigation/views/RnnToolBar.java:62-67 | The background is the screen's `toolBarColor` when set. Otherwise it is the construction-time drawable. |
| Toolbar.StyleTitleColor | android/app/src/main/java/com/reactnativenavigation/views/RnnToolBar.java:69-73 | The title colour is the screen's `titleColor` when set. Otherwise it is the platform default. |
| Toolbar.StyleVisibility | android/app/src/main/java/com/reactnativenavigation/views/RnnToolBar.java:75-79 | With an action bar, the toolbar is hidden iff `toolBarHidden` is present and true. Without one, visibility is unchanged. |
| Toolbar.SetStyleIdempotent | android/app/src/main/java/com/reactnativenavigation/views/RnnToolBar.java:62-80 | Applying the same screen's style twice gives the same state as applying it once. |
| Toolbar.Update | android/app/src/main/java/com/reactnativenavigation/views/RnnToolBar.java:155-160 | `update` keeps the construction-time defaults, the latch, the screens and the overflow tint. |
| Toolbar.UpdateTitleAndVisibility | android/app/src/main/java/com/reactnativenavigation/views/RnnToolBar.java:155-160 | After `update`, the title is the screen's title verbatim and the bar is hidden iff the screen asks. `update` is idempotent. |
| Toolbar.VisitKeepsDefaults | android/app/src/main/java/com/reactnativenavigation/views/RnnToolBar.java:54-56 | No sequence of updates changes the captured background or the platform text colour. |
| Toolbar.LookIndependentOfHistory | android/app/src/main/java/com/reactnativenavigation/views/RnnToolBar.java:62-88 | After any sequence of updates, updating for a screen looks the same as on a fresh toolbar. A reset returns to the construction-time background. This is the corrected behaviour; see Findings. |
| Toolbar.AliasedResetShowsEarlierColour | android/app/src/main/java/com/reactnativenavigation/views/RnnToolBar.java:54-56 | With `mBackground` a reference to a live plain-colour drawable of colour c0, a coloured screen followed by an uncoloured one shows the first screen's colour, where a fresh toolbar shows c0. |
| Toolbar.TaskFor | android/app/src/main/java/com/reactnativenavigation/views/RnnToolBar.java:174-180 | The task holds the old screen's buttons (null iff the old screen is null), the new screen's buttons and tint, and the icon size. |
| Toolbar.SetupToolbarButtonsAsync | android/app/src/main/java/com/reactnativenavigation/views/RnnToolBar.java:99-103 | A request creates a task only when none is pending. The task captures the new buttons, the tint, the icon size and the old screen's buttons (absent iff the old screen is null). Otherwise nothing changes. |
| Toolbar.SetupToolbarButtonsAsyncFor | android/app/src/main/java/com/reactnativenavigation/views/RnnToolBar.java:94-96 | The one-argument overload passes a null old screen. On an idle toolbar only the latch changes; otherwise nothing does. |
| Toolbar.HandleOnCreateOptionsMenuAsync | android/app/src/main/java/com/reactnativenavigation/views/RnnToolBar.java:90-92 | Requests buttons for the first screen with a null old screen. On an idle toolbar only the latch changes. The screen list must be non-empty. |
| Toolbar.UpdateAndSetButtons | android/app/src/main/java/com/reactnativenavigation/views/RnnToolBar.java:162-165 | Apart from the latch, the state is exactly that of `update`. Then the screen's buttons are requested with a null old screen, subject to the latch. |
| Scenarios.UpdateAndSetButtonsShowsScreen | android/app/src/main/java/com/reactnativenavigation/views/RnnToolBar.java:162-252 | On an idle toolbar, `updateAndSetButtons` followed by resolution and a reachable full apply leaves exactly the screen's items in the menu, in button order. The look is that of `update`, the defaults and screens are kept, and the latch is free. |
| Toolbar.PendingDropsRequests | android/app/src/main/java/com/reactnativenavigation/views/RnnToolBar.java:99-103 | While a task is pending, any sequence of requests changes nothing. The pending (old, new) pair is kept. |
| Toolbar.FirstRequestWins | android/app/src/main/java/com/reactnativenavigation/views/RnnToolBar.java:99-103 | In a burst of requests on an idle toolbar, exactly the first one creates the task. |
| ButtonsTask.ResolveIcons | android/app/src/main/java/com/reactnativenavigation/views/RnnToolBar.java:189-195 | The map's keys are exactly the ids of buttons that declare an icon. Each id maps to the icon of the last such button. |
| ButtonsTask.DoInBackground | android/app/src/main/java/com/reactnativenavigation/views/RnnToolBar.java:183-196 | There is no map iff no activity context is available. Otherwise the keys are exactly the new buttons' ids that have icons. |
| ButtonsTask.ItemsFor | android/app/src/main/java/com/reactnativenavigation/views/RnnToolBar.java:226-242 | One item per new button, in button order, with ordinals increasing. |
| ButtonsTask.RemoveButtons | android/app/src/main/java/com/reactnativenavigation/views/RnnToolBar.java:220-222 | Removing the old buttons' items only drops items and keeps the menu ordered. |
| ButtonsTask.RemoveButtonsFrame | android/app/src/main/java/com/reactnativenavigation/views/RnnToolBar.java:216-223 | Every item whose id is not an old button's item id survives, unchanged and in order. |
| ButtonsTask.RemoveButtonsExact | android/app/src/main/java/com/reactnativenavigation/views/RnnToolBar.java:216-223 | In a menu with distinct item ids, exactly the items whose id is some old button's item id are removed. |
| ButtonsTask.RemoveOwnItems | android/app/src/main/java/com/reactnativenavigation/views/RnnToolBar.java:220-222 | A menu holding exactly the old buttons' items, in order, is emptied. |
| ButtonsTask.RemovalPhase | android/app/src/main/java/com/reactnativenavigation/views/RnnToolBar.java:216-223 | With no old screen the menu is cleared. Otherwise other items are kept in order, and with distinct ids exactly the old items go. |
| ButtonsTask.ItemsForDistinct | android/app/src/main/java/com/reactnativenavigation/views/RnnToolBar.java:226-228 | Buttons with distinct ids give items with distinct item ids. |
| ButtonsTask.RemovalAfterFirstPopulation | android/app/src/main/java/com/reactnativenavigation/views/RnnToolBar.java:216-242 | After a first population with distinct button ids, the next task's removal takes out exactly the items of its old buttons. |
| ButtonsTask.AddedItems | android/app/src/main/java/com/reactnativenavigation/views/RnnToolBar.java:225-242 | Item `i` has button `i`'s item id, order `i` and title. It has an icon iff the map has the id, tinted with the task's tint. It is disabled iff the button is. |
| ButtonsTask.IconIffDeclared | android/app/src/main/java/com/reactnativenavigation/views/RnnToolBar.java:189-237 | An added item has an icon iff some new button with its id declares one. With unique ids, iff its own button does, and then it is that button's resolved icon. |
| ButtonsTask.ApplyMenuContents | android/app/src/main/java/com/reactnativenavigation/views/RnnToolBar.java:216-242 | The edit keeps the menu ordered and adds exactly the new items to what removal left. Items of neither screen are untouched and keep their order. |
| ButtonsTask.FirstPopulation | android/app/src/main/java/com/reactnativenavigation/views/RnnToolBar.java:216-242 | With no old screen, the menu ends up as exactly the new buttons' items, in order. |
| ButtonsTask.ReplacesShownButtons | android/app/src/main/java/com/reactnativenavigation/views/RnnToolBar.java:216-242 | If the menu shows exactly the old screen's buttons, it ends up as exactly the new screen's items, in order. |
| ButtonsTask.OnPostExecute | android/app/src/main/java/com/reactnativenavigation/views/RnnToolBar.java:199-253 | The apply crashes iff an activity and menu exist, the icon map is null and there are new buttons. An unreachable toolbar is left untouched. |
| ButtonsTask.LatchRelease | android/app/src/main/java/com/reactnativenavigation/views/RnnToolBar.java:199-252 | With no activity, nothing changes and the latch stays set. With an activity, the latch is released iff the toolbar is reachable. |
| ButtonsTask.FullApply | android/app/src/main/java/com/reactnativenavigation/views/RnnToolBar.java:216-252 | A full apply shows the reconciled menu. The overflow icon takes the tint when one is set and the toolbar is reachable, and is unchanged when no tint is set. On a reachable toolbar, only the overflow tint and the latch change. |
| ButtonsTask.NoMenuApply | android/app/src/main/java/com/reactnativenavigation/views/RnnToolBar.java:205-214 | With no menu, the menu is untouched and the latch is released iff the toolbar is reachable. |
| ButtonsTask.ApplyKeepsSorted | android/app/src/main/java/com/reactnativenavigation/views/RnnToolBar.java:216-242 | An ordered menu stays ordered through the apply phase. |
| Menus.Insert | android/app/src/main/java/com/reactnativenavigation/views/RnnToolBar.java:228 | `menu.add` adds exactly the item and keeps the other items in their relative order. An ordered menu stays ordered. |
| Menus.InsertAtEnd | android/app/src/main/java/com/reactnativenavigation/views/RnnToolBar.java:228 | An item ordered at or after every existing item is appended. |
| Menus.InsertAll | android/app/src/main/java/com/reactnativenavigation/views/RnnToolBar.java:226-228 | Adding items in turn adds exactly those items and keeps an ordered menu ordered. |
| Menus.InsertAllInOrder | android/app/src/main/java/com/reactnativenavigation/views/RnnToolBar.java:226-228 | Items whose orders continue the menu's are appended in sequence order. |
| Menus.RemoveItem | android/app/src/main/java/com/reactnativenavigation/views/RnnToolBar.java:221 | `menu.removeItem` removes one item carrying the id if there is one, and changes nothing otherwise. It keeps the menu ordered. |
| Menus.RemoveItemExact | android/app/src/main/java/com/reactnativenavigation/views/RnnToolBar.java:221 | With distinct ids, `removeItem` removes exactly the items carrying the id. |
| Menus.RemoveItemFrame | android/app/src/main/java/com/reactnativenavigation/views/RnnToolBar.java:221 | Removing an item leaves every item with another id unchanged and in order. |
| Menus.InsertFrame | android/app/src/main/java/com/reactnativenavigation/views/RnnToolBar.java:228 | Adding an item leaves every item with another id unchanged and in order. |
| Scenarios.RoundTrip | android/app/src/main/java/com/reactnativenavigation/views/RnnToolBar.java:99-253 | Request, resolution and a reachable full apply show the reconciled menu and free the latch. The next request then starts its own task. |
| Scenarios.BackToBack | android/app/src/main/java/com/reactnativenavigation/views/RnnToolBar.java:99-103 | Of two back-to-back requests, only the first (old, new) pair reaches the menu. |
| Scenarios.StuckWithoutActivity | android/app/src/main/java/com/reactnativenavigation/views/RnnToolBar.java:199-203 | If the activity is gone when the apply phase starts, the latch is never released and every later request is dropped. |
| Scenarios.FirstPopulationExample | android/app/src/main/java/com/reactnativenavigation/views/RnnToolBar.java:216-242 | First population with [a, b], only b with icon X, shows exactly a (no icon) then b (icon X). |
| Scenarios.NavigationExample | android/app/src/main/java/com/reactnativenavigation/views/RnnToolBar.java:216-242 | Navigating from a shown [a, b] to [b, c] shows exactly b then c and frees the latch. |

## Findings

| source | as written | input that shows it | evidently intended | confidence | as-written member | corrected member |
|---|---|---|---|---|---|---|
| android/app/src/main/java/com/reactnativenavigation/views/RnnToolBar.java:54-56 | `init` keeps a reference to the live background drawable. `setStyle` then calls `setBackgroundColor` (line 64), which recolours a plain-colour background drawable in place, so the captured drawable itself changes colour. | Construction background a plain colour c0. Screen 1 has `toolBarColor` c1 != c0. Screen 2 has no `toolBarColor`. The reset at line 83 then shows c1. | A reset shows the construction-time background c0, for example by capturing a copy of the drawable. | medium, not executed: it rests on `View.setBackgroundColor` recolouring a plain-colour drawable in place, which is framework code not part of this model | Toolbar.AliasedResetShowsEarlierColour | Toolbar.LookIndependentOfHistory |

The rest of the model uses the corrected behaviour: `Background.Captured` is an unchanging copy of the construction-time drawable.

## Left out
- Toolbar.SetShown: assumes the activity the context provider returns is the toolbar's own, and that it has a support action bar exactly when `update` has bound this toolbar. The same holds for `Toolbar.StyleVisibility` and `Toolbar.UpdateTitleAndVisibility`. The code does not guarantee that activity is the toolbar's own. When it differs, show or hide acts on another activity's bar, which the model does not represent.
- Toolbar.LookIndependentOfHistory: holds for the corrected background handling, not for the code as written when the construction background is a plain colour (see Findings). The history is a sequence of `update` calls only. Requests and applies do not touch the background, but they are not part of the lemma's history.

- The back button (`showBackButton`, `setupBackButton`, `hideBackButton`, lines 119-148) is not modelled. It selects the up-indicator drawable and may tint it, and it shows or hides the action bar's up button. Both entry points assume a support action bar exists: lines 121-124 and 147 dereference it without a null check.
- `SingleScreenActivity` and the screen stack it forwards to are not part of this model. The screen stack's source is not available, and the activity adds no logic that involves the toolbar core.
- `AsyncTask` scheduling and threading are not modelled. The two phases are explicit sequential steps.
- `WeakReference` garbage collection is not modelled. Reachability is a boolean input to the apply phase.
- The icon size `(int)(getHeight() * 0.4f)` (line 179) is not computed, because it is floating point. It is an integer parameter of the request.
- Icon resolution is not modelled: `Button.getIcon` is a tag of the icon reference and size. Its source is not part of this model, and a failing or null icon is not modelled.
- `ImageUtils.tint` is not modelled as pixel tinting. It is recorded as the tint carried by the item icon or the overflow icon.
- The source of `Button.getItemId` is not available. The model uses `Screens.ItemId`, an injective encoding of the id string, as the toolbar relies on. A 32-bit hash could collide, and collisions are not modelled.
- Colours are unbounded integers. No arithmetic is done on them, so 32-bit width does not matter.
- The null-pointer crash when the icon map is null but an activity, a menu and new buttons exist (line 231) is the `Crashed` outcome. The partial menu edits made before the crash are not kept.
- The crashes when `mScreens` is null or empty (line 91) are excluded by `HandleOnCreateOptionsMenuAsync`'s precondition.
- The crashes when `showToolbar`/`hideToolbar` find no activity context are not modelled. An activity context is assumed during style application.
- `MenuItem.setShowAsAction(SHOW_AS_ACTION_IF_ROOM)` is recorded as a flag on the item. Layout is not modelled.
- `setSupportActionBar` is recorded only as a flag on the toolbar state. Any state it resets in the framework is not modelled.

=== FILE: buttons_task.dfy ===
/**
 The button-setup task: a resolution phase that builds the icon map off the UI thread,
 and an apply phase that rewrites the options menu and releases the latch.
 */
module ButtonsTask {
  import opened Wrappers
  import opened Screens
  import opened Menus
  import opened Toolbar

  /** Resolved icons keyed by button id. */
  type IconMap = map<string, Drawable>

  /** No button after index `k` with the same id declares an icon (the map keeps the last one put). */
  predicate LastIconFor(bs: seq<Button>, k: int)
    requires 0 <= k < |bs|
  {
    forall j :: k < j < |bs| && bs[j].id == bs[k].id ==> !bs[j].HasIcon()
  }

  /** The keys of `icons` are exactly the ids of the buttons that declare an icon. */
  ghost predicate KeysAreIconIds(bs: seq<Button>, icons: IconMap) {
    forall id :: id in icons <==> exists k :: 0 <= k < |bs| && bs[k].id == id && bs[k].HasIcon()
  }

  /** Each id maps to the icon of the last button with that id that declares one. */
  predicate ValuesAreLastIcons(bs: seq<Button>, size: int, icons: IconMap) {
    forall k :: 0 <= k < |bs| && bs[k].HasIcon() && LastIconFor(bs, k) ==> bs[k].id in icons && icons[bs[k].id] == GetIcon(bs[k], size)
  }

  /** The map after one more `icons.put` step of the resolution loop. */
  function PutIcon(prior: IconMap, last: Button, size: int): IconMap {
    if last.HasIcon() then prior[last.id := GetIcon(last, size)] else prior
  }

  /** One `icons.put` step keeps the keys equal to the ids of the buttons with icons. */
  lemma ResolveStepKeys(bs: seq<Button>, size: int, prior: IconMap)
    requires bs != []
    requires KeysAreIconIds(bs[..|bs| - 1], prior)
    ensures KeysAreIconIds(bs, PutIcon(prior, bs[|bs| - 1], size))
  {
    var n := |bs| - 1;
    var init, icons := bs[..n], PutIcon(prior, bs[n], size);
    forall id
      ensures id in icons <==> exists k :: 0 <= k < |bs| && bs[k].id == id && bs[k].HasIcon()
    {
      if id in prior {
        var k :| 0 <= k < n && init[k].id == id && init[k].HasIcon();
        assert bs[k] == init[k];
      }
      if exists k :: 0 <= k < |bs| && bs[k].id == id && bs[k].HasIcon() {
        var k :| 0 <= k < |bs| && bs[k].id == id && bs[k].HasIcon();
        if k < n {
          assert init[k] == bs[k];
        }
      }
    }
  }

  /** One `icons.put` step keeps every id mapped to the icon of its last declaring button. */
  lemma ResolveStepValues(bs: seq<Button>, size: int, prior: IconMap)
    requires bs != []
    requires ValuesAreLastIcons(bs[..|bs| - 1], size, prior)
    ensures ValuesAreLastIcons(bs, size, PutIcon(prior, bs[|bs| - 1], size))
  {
    var n := |bs| - 1;
    var init, icons := bs[..n], PutIcon(prior, bs[n], size);
    forall k | 0 <= k < |bs| && bs[k].HasIcon() && LastIconFor(bs, k)
      ensures bs[k].id in icons && icons[bs[k].id] == GetIcon(bs[k], size)
    {
      if k < n {
        assert init[k] == bs[k];
        assert LastIconFor(init, k);
      }
    }
  }

  /** Puts the icon of every button that declares one, in sequence order. */
  function ResolveIcons(bs: seq<Button>, size: int): (icons: IconMap)
    ensures KeysAreIconIds(bs, icons)
    ensures ValuesAreLastIcons(bs, size, icons)
    decreases |bs|
  {
    if bs == [] then map[]
    else
      var prior := ResolveIcons(bs[..|bs| - 1], size);
      ResolveStepKeys(bs, size, prior);
      ResolveStepValues(bs, size, prior);
      PutIcon(prior, bs[|bs| - 1], size)
  }

  /** `doInBackground`: no map at all without an activity context, otherwise the resolved icons. */
  function DoInBackground(task: Task, contextAvailable: bool): (icons: Option<IconMap>)
    ensures icons.None? <==> !contextAvailable
    ensures icons.Some? ==> forall id :: id in icons.value <==> exists b :: b in task.newButtons && b.id == id && b.HasIcon()
  {
    if contextAvailable then Some(ResolveIcons(task.newButtons, task.iconSize)) else None
  }

  /** The menu item added for button `b` at ordinal `order`. */
  function ItemFor(b: Button, order: int, icons: IconMap, tint: Option<int>): MenuItem {
    MenuItem(ItemId(b.id), order, b.title,
             if b.id in icons then Some(ItemIcon(icons[b.id], tint)) else None,
             !b.disabled, true)
  }

  /** The items added for the new buttons, one per button, at ordinals 0, 1, 2, ... */
  function ItemsFor(bs: seq<Button>, icons: IconMap, tint: Option<int>): (items: seq<MenuItem>)
    ensures |items| == |bs|
    ensures forall i :: 0 <= i < |bs| ==> items[i] == ItemFor(bs[i], i, icons, tint)
    ensures Sorted(items)
  {
    seq(|bs|, i requires 0 <= i < |bs| => ItemFor(bs[i], i, icons, tint))
  }

  /** The item ids of the buttons, as a set. */
  function ItemIds(bs: seq<Button>): (ids: set<int>)
    ensures forall k :: 0 <= k < |bs| ==> ItemId(bs[k].id) in ids
    ensures forall n :: n in ids ==> exists k :: 0 <= k < |bs| && ItemId(bs[k].id) == n
    decreases |bs|
  {
    if bs == [] then {} else {ItemId(bs[0].id)} + ItemIds(bs[1..])
  }

  /** `menu.removeItem(btn.getItemId())` for each old button, in order. */
  function RemoveButtons(m: Menu, bs: seq<Button>): (r: Menu)
    ensures multiset(r) <= multiset(m)
    ensures Sorted(m) ==> Sorted(r)
    decreases |bs|
  {
    if bs == [] then m else RemoveButtons(RemoveItem(m, ItemId(bs[0].id)), bs[1..])
  }

  /** Removal phase: clear the menu when there is no old screen, else remove the old buttons' items. */
  function RemovePrevious(m: Menu, oldButtons: Option<seq<Button>>): Menu {
    if oldButtons.None? then [] else RemoveButtons(m, oldButtons.value)
  }

  /** The menu after the removal and add phases of one task. */
  function ApplyMenu(task: Task, icons: IconMap, m: Menu): Menu {
    InsertAll(RemovePrevious(m, task.oldButtons), ItemsFor(task.newButtons, icons, task.tint))
  }

  /** The activity as the apply phase finds it: gone, or present with a menu that may not exist yet. */
  datatype Activity = NoActivity | Live(menu: Option<Menu>)

  /** The apply phase ends normally, or dereferences a null icon map. */
  datatype Outcome = Applied(activity: Activity, toolbar: ToolbarState) | Crashed

  /**
   `onPostExecute`: the apply phase. `reachable` says whether the weakly referenced toolbar
   still exists; only then are its latch and overflow icon touched.
   */
  function OnPostExecute(task: Task, icons: Option<IconMap>, activity: Activity, reachable: bool, t: ToolbarState): (r: Outcome)
    ensures r.Crashed? <==> activity.Live? && activity.menu.Some? && icons.None? && |task.newButtons| > 0
    ensures r.Applied? && !reachable ==> r.toolbar == t
    ensures r.Applied? && activity.Live? && activity.menu.Some? ==> r.activity.Live? && r.activity.menu.Some?
  {
    match activity
    case NoActivity => Applied(activity, t)
    case Live(None) => Applied(activity, if reachable then t.(latch := Idle) else t)
    case Live(Some(m)) =>
      if icons.None? && |task.newButtons| > 0 then Crashed
      else
        var menu := ApplyMenu(task, icons.GetOr(map[]), m);
        var tinted := if task.tint.Some? then task.tint else t.overflowTint;
        Applied(Live(Some(menu)), if reachable then t.(overflowTint := tinted, latch := Idle) else t)
  }

  /** Removing the old buttons' items leaves every item with another id in place, in order. */
  lemma {:induction false} RemoveButtonsFrame(m: Menu, bs: seq<Button>, ids: set<int>)
    requires ItemIds(bs) <= ids
    ensures Without(RemoveButtons(m, bs), ids) == Without(m, ids)
    decreases |bs|
  {
    if bs != [] {
      RemoveItemFrame(m, ItemId(bs[0].id), ids);
      RemoveButtonsFrame(RemoveItem(m, ItemId(bs[0].id)), bs[1..], ids);
    }
  }

  /** In a menu whose item ids are distinct, exactly the items of the old buttons are removed. */
  lemma {:induction false} RemoveButtonsExact(m: Menu, bs: seq<Button>)
    requires DistinctIds(m)
    ensures RemoveButtons(m, bs) == Without(m, ItemIds(bs))
    decreases |bs|
  {
    if bs == [] {
      WithoutNothing(m, {});
    } else {
      var id := ItemId(bs[0].id);
      RemoveItemExact(m, id);
      WithoutKeepsDistinct(m, {id});
      RemoveButtonsExact(Without(m, {id}), bs[1..]);
      WithoutTwice(m, {id}, ItemIds(bs[1..]));
    }
  }

  /** A menu holding exactly one item per old button, in order, is emptied by the removal phase. */
  lemma {:induction false} RemoveOwnItems(m: Menu, bs: seq<Button>)
    requires |m| == |bs|
    requires forall k :: 0 <= k < |m| ==> m[k].itemId == ItemId(bs[k].id)
    ensures RemoveButtons(m, bs) == []
    decreases |bs|
  {
    if bs != [] {
      RemoveFirst(m, ItemId(bs[0].id));
      RemoveOwnItems(m[1..], bs[1..]);
    }
  }

  /**
   Removal phase, case by case: without an old screen the menu is cleared; otherwise the
   items of other ids survive unchanged and in order, and when item ids are distinct the
   removed items are exactly those of the old buttons.
   */
  lemma RemovalPhase(m: Menu, oldButtons: Option<seq<Button>>)
    ensures oldButtons.None? ==> RemovePrevious(m, oldButtons) == []
    ensures oldButtons.Some? ==> Without(RemovePrevious(m, oldButtons), ItemIds(oldButtons.value)) == Without(m, ItemIds(oldButtons.value))
    ensures oldButtons.Some? && DistinctIds(m) ==> RemovePrevious(m, oldButtons) == Without(m, ItemIds(oldButtons.value))
  {
    if oldButtons.Some? {
      RemoveButtonsFrame(m, oldButtons.value, ItemIds(oldButtons.value));
      if DistinctIds(m) {
        RemoveButtonsExact(m, oldButtons.value);
      }
    }
  }

  /** Buttons with distinct ids give items with distinct item ids. */
  lemma ItemsForDistinct(bs: seq<Button>, icons: IconMap, tint: Option<int>)
    requires UniqueIds(bs)
    ensures DistinctIds(ItemsFor(bs, icons, tint))
  {
    var items := ItemsFor(bs, icons, tint);
    forall i, j | 0 <= i < j < |items|
      ensures items[i].itemId != items[j].itemId
    {
      if items[i].itemId == items[j].itemId {
        ItemIdInjective(bs[i].id, bs[j].id);
      }
    }
  }

  /**
   Add phase: one item per new button, carrying the button's item id, ordinal and title;
   it has an icon exactly when the map has the button's id, tinted exactly when a tint is
   set, and it is disabled exactly when the button is.
   */
  lemma AddedItems(bs: seq<Button>, icons: IconMap, tint: Option<int>, i: int)
    requires 0 <= i < |bs|
    ensures var item := ItemsFor(bs, icons, tint)[i];
      && item.itemId == ItemId(bs[i].id) && item.order == i && item.title == bs[i].title
      && (item.icon.Some? <==> bs[i].id in icons)
      && (item.icon.Some? ==> item.icon.value.drawable == icons[bs[i].id] && item.icon.value.tint == tint)
      && (!item.enabled <==> bs[i].disabled)
  {
  }

  /** An added item has an icon exactly when some new button with its id declares one. */
  lemma IconIffDeclared(bs: seq<Button>, size: int, tint: Option<int>, i: int)
    requires 0 <= i < |bs|
    ensures ItemsFor(bs, ResolveIcons(bs, size), tint)[i].icon.Some? <==> exists k :: 0 <= k < |bs| && bs[k].id == bs[i].id && bs[k].HasIcon()
    ensures UniqueIds(bs) ==> (ItemsFor(bs, ResolveIcons(bs, size), tint)[i].icon.Some? <==> bs[i].HasIcon())
    ensures UniqueIds(bs) && bs[i].HasIcon() ==> ItemsFor(bs, ResolveIcons(bs, size), tint)[i].icon == Some(ItemIcon(GetIcon(bs[i], size), tint))
  {
    var icons := ResolveIcons(bs, size);
    var item := ItemsFor(bs, icons, tint)[i];
    assert item == ItemFor(bs[i], i, icons, tint);
    assert item.icon.Some? <==> bs[i].id in icons;
    if UniqueIds(bs) {
      assert forall k :: 0 <= k < |bs| && bs[k].id == bs[i].id ==> k == i;
      if bs[i].HasIcon() {
        assert LastIconFor(bs, i);
        assert icons[bs[i].id] == GetIcon(bs[i], size);
      }
    }
  }

  /**
   The whole menu edit keeps the menu ordered, adds exactly the new items to what the
   removal phase left, and touches no item whose id belongs to neither screen.
   */
  lemma ApplyMenuContents(task: Task, icons: IconMap, m: Menu)
    ensures Sorted(m) ==> Sorted(ApplyMenu(task, icons, m))
    ensures multiset(ApplyMenu(task, icons, m))
         == multiset(RemovePrevious(m, task.oldButtons)) + multiset(ItemsFor(task.newButtons, icons, task.tint))
    ensures task.oldButtons.Some? ==>
      var ids := ItemIds(task.oldButtons.value) + ItemIds(task.newButtons);
      Without(ApplyMenu(task, icons, m), ids) == Without(m, ids)
  {
    if task.oldButtons.Some? {
      var ids := ItemIds(task.oldButtons.value) + ItemIds(task.newButtons);
      var items := ItemsFor(task.newButtons, icons, task.tint);
      RemoveButtonsFrame(m, task.oldButtons.value, ids);
      InsertAllFrame(RemovePrevious(m, task.oldButtons), items, ids);
    }
  }

  /** On first population (no old screen) the menu ends up holding exactly the new buttons' items, in order. */
  lemma FirstPopulation(task: Task, icons: IconMap, m: Menu)
    requires task.oldButtons.None?
    ensures ApplyMenu(task, icons, m) == ItemsFor(task.newButtons, icons, task.tint)
  {
    var items := ItemsFor(task.newButtons, icons, task.tint);
    assert [] + items == items;
    InsertAllInOrder([], items);
  }

  /**
   The task after a first population removes exactly the items of its old buttons from the
   menu the first task built, when the first screen's button ids are distinct.
   */
  lemma RemovalAfterFirstPopulation(first: Task, icons: IconMap, m: Menu, oldButtons: seq<Button>)
    requires first.oldButtons.None? && UniqueIds(first.newButtons)
    ensures var built := ItemsFor(first.newButtons, icons, first.tint);
      && ApplyMenu(first, icons, m) == built
      && RemovePrevious(built, Some(oldButtons)) == Without(built, ItemIds(oldButtons))
  {
    var built := ItemsFor(first.newButtons, icons, first.tint);
    FirstPopulation(first, icons, m);
    ItemsForDistinct(first.newButtons, icons, first.tint);
    RemovalPhase(built, Some(oldButtons));
  }

  /**
   Navigating from a screen whose buttons the menu shows (one item per old button, in
   order) leaves the menu holding exactly the new screen's items, in order.
   */
  lemma ReplacesShownButtons(task: Task, icons: IconMap, m: Menu)
    requires task.oldButtons.Some? && |m| == |task.oldButtons.value|
    requires forall k :: 0 <= k < |m| ==> m[k].itemId == ItemId(task.oldButtons.value[k].id)
    ensures ApplyMenu(task, icons, m) == ItemsFor(task.newButtons, icons, task.tint)
  {
    RemoveOwnItems(m, task.oldButtons.value);
    var items := ItemsFor(task.newButtons, icons, task.tint);
    assert [] + items == items;
    InsertAllInOrder([], items);
  }

  /**
   Latch release by path: with no activity the latch is kept; with an activity (with or
   without a menu) it is cleared exactly when the toolbar is still reachable.
   */
  lemma LatchRelease(task: Task, icons: Option<IconMap>, activity: Activity, reachable: bool, t: ToolbarState)
    requires t.latch.InFlight?
    ensures var r := OnPostExecute(task, icons, activity, reachable, t);
      r.Applied? ==> (r.toolbar.latch.Idle? <==> activity.Live? && reachable)
    ensures activity.NoActivity? ==> OnPostExecute(task, icons, activity, reachable, t) == Applied(activity, t)
  {
  }

  /**
   The menu and overflow icon after a full apply: the menu is the reconciled one, the
   overflow icon takes the task's tint when one is set and the toolbar is reachable.
   */
  lemma FullApply(task: Task, icons: Option<IconMap>, m: Menu, reachable: bool, t: ToolbarState)
    requires icons.Some? || task.newButtons == []
    ensures var r := OnPostExecute(task, icons, Live(Some(m)), reachable, t);
      && r.Applied?
      && r.activity == Live(Some(ApplyMenu(task, icons.GetOr(map[]), m)))
      && (reachable && task.tint.Some? ==> r.toolbar.overflowTint == task.tint)
      && (task.tint.None? ==> r.toolbar.overflowTint == t.overflowTint)
      && (reachable ==> r.toolbar == t.(overflowTint := if task.tint.Some? then task.tint else t.overflowTint, latch := Idle))
  {
  }

  /** Without a menu the apply phase edits nothing and only releases the latch. */
  lemma NoMenuApply(task: Task, icons: Option<IconMap>, reachable: bool, t: ToolbarState)
    ensures OnPostExecute(task, icons, Live(None), reachable, t) == Applied(Live(None), if reachable then t.(latch := Idle) else t)
  {
  }

  /** The apply phase keeps the menu ordered by item order. */
  lemma ApplyKeepsSorted(task: Task, icons: Option<IconMap>, m: Menu, reachable: bool, t: ToolbarState)
    requires Sorted(m)
    ensures var r := OnPostExecute(task, icons, Live(Some(m)), reachable, t);
      r.Applied? ==> Sorted(r.activity.menu.value)
  {
    ApplyMenuContents(task, icons.GetOr(map[]), m);
  }
}

=== FILE: menus.dfy ===
/**
 The options menu the toolbar's buttons are placed in, as a sequence of item records.
 The operations follow the menu contract the toolbar code relies on: `add` places an
 item just after the last item ordered at or before it (so an ordered menu stays
 ordered by `order`), `removeItem` removes the first item carrying the id, and `clear`
 empties the menu.
 */
module Menus {
  import opened Wrappers
  import opened Screens

  /** The icon shown on an item and the tint applied to it, if any. */
  datatype ItemIcon = ItemIcon(drawable: Drawable, tint: Option<int>)

  datatype MenuItem = MenuItem(
    itemId: int,
    order: int,
    title: string,
    icon: Option<ItemIcon>,
    enabled: bool,
    showIfRoom: bool)

  type Menu = seq<MenuItem>

  /** Items are laid out by non-decreasing order. */
  predicate Sorted(m: Menu) {
    forall i, j :: 0 <= i < j < |m| ==> m[i].order <= m[j].order
  }

  /** No two items share an item id. */
  predicate DistinctIds(m: Menu) {
    forall i, j :: 0 <= i < j < |m| ==> m[i].itemId != m[j].itemId
  }

  /** The slot `add` puts an item of the given order in: just after the last item ordered at or before it. */
  function InsertPos(m: Menu, order: int): (p: nat)
    ensures p <= |m|
    ensures forall k :: p <= k < |m| ==> m[k].order > order
    ensures 0 < p ==> m[p - 1].order <= order
    decreases |m|
  {
    if m == [] then 0
    else if m[|m| - 1].order <= order then |m|
    else InsertPos(m[..|m| - 1], order)
  }

  lemma InsertKeepsSorted(m: Menu, item: MenuItem)
    ensures Sorted(m) ==> Sorted(m[..InsertPos(m, item.order)] + [item] + m[InsertPos(m, item.order)..])
  {
    if Sorted(m) {
      var p := InsertPos(m, item.order);
      var r := m[..p] + [item] + m[p..];
      forall i, j | 0 <= i < j < |r|
        ensures r[i].order <= r[j].order
      {
        if i < p && j == p {
          assert m[i].order <= m[p - 1].order;
        }
      }
    }
  }

  /** Facts about putting `item` into slot `p` of `m`. */
  lemma Splice(m: Menu, p: nat, item: MenuItem)
    requires p <= |m|
    ensures var r := m[..p] + [item] + m[p..];
      && r[p] == item
      && r[..p] + r[p + 1..] == m
      && multiset(r) == multiset(m) + multiset{item}
  {
    var r := m[..p] + [item] + m[p..];
    assert r[..p] == m[..p];
    assert r[p + 1..] == m[p..];
    assert m == m[..p] + m[p..];
  }

  /** `Menu.add`: the menu with `item` inserted at its ordered position. */
  function Insert(m: Menu, item: MenuItem): (r: Menu)
    ensures |r| == |m| + 1
    ensures multiset(r) == multiset(m) + multiset{item}
    ensures exists p :: 0 <= p < |r| && r[p] == item && r[..p] + r[p + 1..] == m
    ensures Sorted(m) ==> Sorted(r)
  {
    var p := InsertPos(m, item.order);
    Splice(m, p, item);
    InsertKeepsSorted(m, item);
    m[..p] + [item] + m[p..]
  }

  /** An item ordered at or after every item of the menu is appended. */
  lemma InsertAtEnd(m: Menu, item: MenuItem)
    requires forall k :: 0 <= k < |m| ==> m[k].order <= item.order
    ensures Insert(m, item) == m + [item]
  {
    var p := InsertPos(m, item.order);
    assert p == |m|;
    assert m[..p] == m;
  }

  /** `Menu.add` for each item in turn. */
  function InsertAll(m: Menu, items: seq<MenuItem>): (r: Menu)
    ensures |r| == |m| + |items|
    ensures multiset(r) == multiset(m) + multiset(items)
    ensures Sorted(m) ==> Sorted(r)
    decreases |items|
  {
    if items == [] then m
    else
      var init, last := items[..|items| - 1], items[|items| - 1];
      assert items == init + [last];
      Insert(InsertAll(m, init), last)
  }

  lemma SortedPrefix(s: Menu, n: nat)
    requires Sorted(s) && n <= |s|
    ensures Sorted(s[..n])
  {
  }

  /** Items that already come in order are simply appended, in sequence. */
  lemma {:induction false} InsertAllInOrder(m: Menu, items: seq<MenuItem>)
    requires Sorted(m + items)
    ensures InsertAll(m, items) == m + items
    decreases |items|
  {
    if items != [] {
      var all := m + items;
      var n := |items|;
      var init, last := items[..n - 1], items[n - 1];
      assert m + init == all[..|all| - 1];
      assert last == all[|all| - 1];
      SortedPrefix(all, |all| - 1);
      InsertAllInOrder(m, init);
      assert forall k :: 0 <= k < |m + init| ==> (m + init)[k].order <= last.order;
      InsertAtEnd(m + init, last);
      assert (m + init) + [last] == all;
    }
  }

  /** Whether some item carries `id`. */
  predicate HasItem(m: Menu, id: int) {
    exists k :: 0 <= k < |m| && m[k].itemId == id
  }

  /** Index of the first item carrying `id`, or `|m|` when there is none. */
  function IndexOf(m: Menu, id: int): (k: nat)
    ensures k <= |m|
    ensures k < |m| ==> m[k].itemId == id
    ensures forall j :: 0 <= j < k ==> m[j].itemId != id
    decreases |m|
  {
    if m == [] then 0
    else if m[0].itemId == id then 0
    else 1 + IndexOf(m[1..], id)
  }

  /** `Menu.removeItem`: removes the first item carrying `id`; a missing id leaves the menu alone. */
  function RemoveItem(m: Menu, id: int): (r: Menu)
    ensures !HasItem(m, id) ==> r == m
    ensures HasItem(m, id) ==> |r| == |m| - 1 && multiset(r) + multiset{m[IndexOf(m, id)]} == multiset(m)
    ensures HasItem(m, id) ==> m[IndexOf(m, id)].itemId == id
    ensures multiset(r) <= multiset(m)
    ensures Sorted(m) ==> Sorted(r)
  {
    var k := IndexOf(m, id);
    if k == |m| then m
    else
      assert m == m[..k] + [m[k]] + m[k + 1..];
      m[..k] + m[k + 1..]
  }

  /** The items whose id is outside `ids`, in their original order. */
  function Without(m: Menu, ids: set<int>): (r: Menu)
    ensures |r| <= |m|
    decreases |m|
  {
    if m == [] then []
    else (if m[0].itemId in ids then [] else [m[0]]) + Without(m[1..], ids)
  }

  /** `Without` keeps exactly the items whose id is outside `ids`. */
  lemma {:induction false} WithoutMembers(m: Menu, ids: set<int>, x: MenuItem)
    ensures x in Without(m, ids) <==> x in m && x.itemId !in ids
    decreases |m|
  {
    if m != [] {
      WithoutMembers(m[1..], ids, x);
      assert x in m <==> x == m[0] || x in m[1..] by {
        assert m == [m[0]] + m[1..];
      }
    }
  }

  lemma {:induction false} WithoutAppend(a: Menu, b: Menu, ids: set<int>)
    ensures Without(a + b, ids) == Without(a, ids) + Without(b, ids)
    decreases |a|
  {
    if a == [] {
      assert a + b == b;
    } else {
      assert (a + b)[0] == a[0];
      assert (a + b)[1..] == a[1..] + b;
      WithoutAppend(a[1..], b, ids);
    }
  }

  lemma {:induction false} WithoutNothing(m: Menu, ids: set<int>)
    requires forall k :: 0 <= k < |m| ==> m[k].itemId !in ids
    ensures Without(m, ids) == m
    decreases |m|
  {
    if m != [] {
      WithoutNothing(m[1..], ids);
    }
  }

  /** Removing an item whose id is among `ids` does not change the items outside `ids`. */
  lemma RemoveItemFrame(m: Menu, id: int, ids: set<int>)
    requires id in ids
    ensures Without(RemoveItem(m, id), ids) == Without(m, ids)
  {
    var k := IndexOf(m, id);
    if k < |m| {
      RemoveShape(m, id);
      WithoutSkips(m, m[..k], m[k], m[k + 1..], ids);
    }
  }

  lemma WithoutOne(item: MenuItem, ids: set<int>)
    ensures Without([item], ids) == if item.itemId in ids then [] else [item]
  {
    assert [item][1..] == [];
  }

  /** Dropping one item whose id is among `ids` is invisible outside `ids`. */
  lemma WithoutSkips(whole: Menu, before: Menu, item: MenuItem, after: Menu, ids: set<int>)
    requires whole == before + ([item] + after)
    requires item.itemId in ids
    ensures Without(whole, ids) == Without(before + after, ids)
  {
    WithoutAppend(before, [item] + after, ids);
    WithoutAppend([item], after, ids);
    WithoutOne(item, ids);
    WithoutAppend(before, after, ids);
  }

  lemma RemoveShape(m: Menu, id: int)
    requires IndexOf(m, id) < |m|
    ensures m == m[..IndexOf(m, id)] + ([m[IndexOf(m, id)]] + m[IndexOf(m, id) + 1..])
    ensures RemoveItem(m, id) == m[..IndexOf(m, id)] + m[IndexOf(m, id) + 1..]
  {
  }

  lemma RemovedWasOnly(m: Menu, id: int)
    requires DistinctIds(m) && IndexOf(m, id) < |m|
    ensures var rest := m[..IndexOf(m, id)] + m[IndexOf(m, id) + 1..];
      forall j :: 0 <= j < |rest| ==> rest[j].itemId != id
  {
    var k := IndexOf(m, id);
    var rest := m[..k] + m[k + 1..];
    forall j | 0 <= j < |rest|
      ensures rest[j].itemId != id
    {
      if j >= k {
        assert rest[j] == m[j + 1];
      }
    }
  }

  /** In a menu whose ids are distinct, `removeItem` removes exactly the items carrying the id. */
  lemma RemoveItemExact(m: Menu, id: int)
    requires DistinctIds(m)
    ensures RemoveItem(m, id) == Without(m, {id})
  {
    var k := IndexOf(m, id);
    if k == |m| {
      WithoutNothing(m, {id});
    } else {
      var before, after := m[..k], m[k + 1..];
      calc {
        RemoveItem(m, id);
        { RemoveShape(m, id); }
        before + after;
        { RemovedWasOnly(m, id); WithoutNothing(before + after, {id}); }
        Without(before + after, {id});
        { RemoveShape(m, id); WithoutSkips(m, before, m[k], after, {id}); }
        Without(m, {id});
      }
    }
  }

  lemma {:induction false} WithoutKeepsDistinct(m: Menu, ids: set<int>)
    requires DistinctIds(m)
    ensures DistinctIds(Without(m, ids))
    decreases |m|
  {
    if m != [] {
      WithoutKeepsDistinct(m[1..], ids);
      var rest := Without(m[1..], ids);
      forall x | x in rest
        ensures x.itemId != m[0].itemId
      {
        WithoutMembers(m[1..], ids, x);
      }
    }
  }

  lemma {:induction false} WithoutTwice(m: Menu, a: set<int>, b: set<int>)
    ensures Without(Without(m, a), b) == Without(m, a + b)
    decreases |m|
  {
    if m != [] {
      WithoutTwice(m[1..], a, b);
      var head := if m[0].itemId in a then [] else [m[0]];
      WithoutAppend(head, Without(m[1..], a), b);
    }
  }

  /** When the first item carries `id`, `removeItem` drops exactly that item. */
  lemma RemoveFirst(m: Menu, id: int)
    requires |m| > 0 && m[0].itemId == id
    ensures RemoveItem(m, id) == m[1..]
  {
    assert IndexOf(m, id) == 0;
    assert m[..0] + m[1..] == m[1..];
  }

  lemma SplitAt(s: Menu, p: nat)
    requires p < |s|
    ensures s == s[..p] + ([s[p]] + s[p + 1..])
  {
  }

  /** Inserting an item whose id is among `ids` does not change the items outside `ids`. */
  lemma InsertFrame(m: Menu, item: MenuItem, ids: set<int>)
    requires item.itemId in ids
    ensures Without(Insert(m, item), ids) == Without(m, ids)
  {
    var r := Insert(m, item);
    var p :| 0 <= p < |r| && r[p] == item && r[..p] + r[p + 1..] == m;
    SplitAt(r, p);
    WithoutSkips(r, r[..p], item, r[p + 1..], ids);
  }

  lemma {:induction false} InsertAllFrame(m: Menu, items: seq<MenuItem>, ids: set<int>)
    requires forall k :: 0 <= k < |items| ==> items[k].itemId in ids
    ensures Without(InsertAll(m, items), ids) == Without(m, ids)
    decreases |items|
  {
    if items != [] {
      InsertAllFrame(m, items[..|items| - 1], ids);
      InsertFrame(InsertAll(m, items[..|items| - 1]), items[|items| - 1], ids);
    }
  }
}

=== FILE: scenarios.dfy ===
/**
 Whole-lifecycle properties of button setup: request, resolution, apply, and what the
 latch allows next; plus two concrete navigation examples.
 */
module Scenarios {
  import opened Wrappers
  import opened Screens
  import opened Menus
  import opened Toolbar
  import opened ButtonsTask

  /**
   From an idle toolbar, a request followed by a resolution and an apply on a live
   activity with a menu and a reachable toolbar shows the reconciled menu and leaves the
   latch free, so the next request starts a task of its own.
   */
  lemma RoundTrip(t: ToolbarState, oldScreen: Option<Screen>, newScreen: Screen, size: int, m: Menu, next: Screen)
    requires t.latch.Idle?
    ensures var pending := SetupToolbarButtonsAsync(t, oldScreen, newScreen, size);
      var task := pending.latch.task;
      var icons := DoInBackground(task, true);
      var r := OnPostExecute(task, icons, Live(Some(m)), true, pending);
      && r.Applied?
      && r.activity == Live(Some(ApplyMenu(task, icons.value, m)))
      && r.toolbar.latch == Idle
      && SetupToolbarButtonsAsync(r.toolbar, Some(newScreen), next, size).latch == InFlight(TaskFor(Some(newScreen), next, size))
  {
  }

  /** Two requests issued back to back: only the first (old, new) pair reaches the menu. */
  lemma BackToBack(t: ToolbarState, o1: Option<Screen>, n1: Screen, o2: Option<Screen>, n2: Screen, size: int, m: Menu)
    requires t.latch.Idle?
    ensures var twice := SetupToolbarButtonsAsync(SetupToolbarButtonsAsync(t, o1, n1, size), o2, n2, size);
      && twice.latch == InFlight(TaskFor(o1, n1, size))
      && var task := twice.latch.task;
         var r := OnPostExecute(task, DoInBackground(task, true), Live(Some(m)), true, twice);
         r.Applied? && r.activity == Live(Some(ApplyMenu(TaskFor(o1, n1, size), ResolveIcons(n1.buttons, size), m)))
  {
  }

  /**
   When the activity is gone at the start of the apply phase, the latch is never released:
   every later request on this toolbar is dropped.
   */
  lemma StuckWithoutActivity(t: ToolbarState, task: Task, icons: Option<IconMap>, reachable: bool, reqs: seq<Request>)
    requires t.latch.InFlight?
    ensures var r := OnPostExecute(task, icons, NoActivity, reachable, t);
      r.Applied? && Requests(r.toolbar, reqs) == t
  {
    PendingDropsRequests(t, reqs);
  }

  /**
   `updateAndSetButtons` on an idle toolbar, followed by the resolution and a full apply on a
   reachable toolbar: whatever the menu held, it ends up holding exactly the screen's items,
   in button order; the toolbar looks as `update` left it, keeps its construction-time
   defaults and screens, and the latch is free again.
   */
  lemma {:induction false} UpdateAndSetButtonsShowsScreen(t: ToolbarState, s: Screen, size: int, m: Menu)
    requires t.latch.Idle?
    ensures var pending := UpdateAndSetButtons(t, s, size);
      var task := pending.latch.task;
      var r := OnPostExecute(task, DoInBackground(task, true), Live(Some(m)), true, pending);
      && r.Applied?
      && r.activity == Live(Some(ItemsFor(s.buttons, ResolveIcons(s.buttons, size), s.buttonsTintColor)))
      && LookOf(r.toolbar) == LookOf(Update(t, s))
      && r.toolbar.captured == t.captured && r.toolbar.primaryTextColor == t.primaryTextColor
      && r.toolbar.screens == t.screens
      && r.toolbar.latch == Idle
  {
    var pending := UpdateAndSetButtons(t, s, size);
    var task := pending.latch.task;
    assert task == Task(None, s.buttons, s.buttonsTintColor, size);
    var icons := DoInBackground(task, true);
    FirstPopulation(task, icons.value, m);
    FullApply(task, icons, m, true, pending);
  }

  function Plain(id: string): Button {
    Button(id, id, None, false)
  }

  function Screen1(buttons: seq<Button>): Screen {
    Screen("s", "nav", "Title", None, None, None, None, buttons)
  }

  /**
   First population with buttons [a, b], only b declaring icon X: the menu shows exactly
   a then b, b with the resolved icon and a without one.
   */
  lemma {:induction false} FirstPopulationExample(t: ToolbarState, m: Menu, size: int)
    requires t.latch.Idle?
    ensures var pending := SetupToolbarButtonsAsync(t, None, Screen1([Plain("a"), WithIcon("b", "X")]), size);
      var task := pending.latch.task;
      var r := OnPostExecute(task, DoInBackground(task, true), Live(Some(m)), true, pending);
      && r.Applied?
      && r.activity == Live(Some([ItemOf("a", 0), ItemOf("b", 1).(icon := Some(ItemIcon(Drawable("X", size), None)))]))
  {
    var bs := [Plain("a"), WithIcon("b", "X")];
    var pending := SetupToolbarButtonsAsync(t, None, Screen1(bs), size);
    var task := pending.latch.task;
    assert task == Task(None, bs, None, size);
    var icons := ResolveIcons(bs, size);
    FirstPopulationIcons(size);
    FirstPopulationMenu(icons, m, size);
    FullApply(task, Some(icons), m, true, pending);
  }

  function WithIcon(id: string, icon: IconRef): Button {
    Button(id, id, Some(icon), false)
  }

  lemma FirstPopulationIcons(size: int)
    ensures var icons := ResolveIcons([Plain("a"), WithIcon("b", "X")], size);
      "a" !in icons && "b" in icons && icons["b"] == Drawable("X", size)
  {
    var bs := [Plain("a"), WithIcon("b", "X")];
    assert bs[0].id == "a" && !bs[0].HasIcon() && bs[1].id != "a";
    assert bs[1].HasIcon() && LastIconFor(bs, 1);
  }

  lemma {:induction false} FirstPopulationMenu(icons: IconMap, m: Menu, size: int)
    requires "a" !in icons && "b" in icons && icons["b"] == Drawable("X", size)
    ensures ApplyMenu(Task(None, [Plain("a"), WithIcon("b", "X")], None, size), icons, m)
         == [ItemOf("a", 0), ItemOf("b", 1).(icon := Some(ItemIcon(Drawable("X", size), None)))]
  {
    var task := Task(None, [Plain("a"), WithIcon("b", "X")], None, size);
    FirstPopulation(task, icons, m);
    var items := ItemsFor(task.newButtons, icons, None);
    assert items[0] == ItemOf("a", 0);
    assert items[1] == ItemOf("b", 1).(icon := Some(ItemIcon(Drawable("X", size), None)));
  }

  function ItemOf(id: string, order: int): MenuItem {
    MenuItem(ItemId(id), order, id, None, true, true)
  }

  lemma NoIcons(bs: seq<Button>, size: int)
    requires forall k :: 0 <= k < |bs| ==> !bs[k].HasIcon()
    ensures ResolveIcons(bs, size) == map[]
  {
  }

  lemma {:induction false} NavigationMenu(size: int)
    ensures ApplyMenu(Task(Some([Plain("a"), Plain("b")]), [Plain("b"), Plain("c")], None, size), map[], [ItemOf("a", 0), ItemOf("b", 1)])
         == [ItemOf("b", 0), ItemOf("c", 1)]
  {
    var task := Task(Some([Plain("a"), Plain("b")]), [Plain("b"), Plain("c")], None, size);
    ReplacesShownButtons(task, map[], [ItemOf("a", 0), ItemOf("b", 1)]);
    var items := ItemsFor(task.newButtons, map[], None);
    assert items[0] == ItemOf("b", 0);
    assert items[1] == ItemOf("c", 1);
  }

  /** The apply phase of the navigation from [a, b] to [b, c], whatever the toolbar state. */
  lemma {:induction false} NavigationApply(t: ToolbarState, size: int)
    ensures var task := Task(Some([Plain("a"), Plain("b")]), [Plain("b"), Plain("c")], None, size);
      OnPostExecute(task, DoInBackground(task, true), Live(Some([ItemOf("a", 0), ItemOf("b", 1)])), true, t)
        == Applied(Live(Some([ItemOf("b", 0), ItemOf("c", 1)])), t.(latch := Idle))
  {
    var task := Task(Some([Plain("a"), Plain("b")]), [Plain("b"), Plain("c")], None, size);
    var shown := [ItemOf("a", 0), ItemOf("b", 1)];
    assert DoInBackground(task, true) == Some(map[]) by {
      NoIcons(task.newButtons, size);
    }
    assert ApplyMenu(task, map[], shown) == [ItemOf("b", 0), ItemOf("c", 1)] by {
      NavigationMenu(size);
    }
  }

  /** Navigating from buttons [a, b] (shown in the menu) to [b, c]: the menu shows exactly b then c. */
  lemma {:induction false} NavigationExample(t: ToolbarState, size: int)
    requires t.latch.Idle?
    ensures var pending := SetupToolbarButtonsAsync(t, Some(Screen1([Plain("a"), Plain("b")])), Screen1([Plain("b"), Plain("c")]), size);
      var task := pending.latch.task;
      var r := OnPostExecute(task, DoInBackground(task, true), Live(Some([ItemOf("a", 0), ItemOf("b", 1)])), true, pending);
      && r.Applied?
      && r.activity == Live(Some([ItemOf("b", 0), ItemOf("c", 1)]))
      && r.toolbar.latch == Idle
  {
    var pending := SetupToolbarButtonsAsync(t, Some(Screen1([Plain("a"), Plain("b")])), Screen1([Plain("b"), Plain("c")]), size);
    assert pending.latch.task == Task(Some([Plain("a"), Plain("b")]), [Plain("b"), Plain("c")], None, size);
    NavigationApply(pending, size);
  }
}

=== FILE: screens.dfy ===
/**
 The screen and button descriptors the toolbar reads. Only the fields the toolbar
 consults are modelled; how a descriptor is built from configuration is not.
 */
module Screens {
  import opened Wrappers

  /** An icon reference declared by a button (a lazily resolvable handle). */
  type IconRef = string

  /** An icon resolved to a drawable of a given pixel size; its pixels are not modelled. */
  datatype Drawable = Drawable(source: IconRef, size: int)

  /** One toolbar action of a screen. */
  datatype Button = Button(id: string, title: string, icon: Option<IconRef>, disabled: bool)
  {
    /** `Button.hasIcon()`: the button declares an icon. */
    predicate HasIcon() {
      icon.Some?
    }
  }

  /** The chrome configuration of one navigable screen; optional fields are `null`-able in the source. */
  datatype Screen = Screen(
    screenId: string,
    navigatorId: string,
    title: string,
    toolBarColor: Option<int>,
    titleColor: Option<int>,
    toolBarHidden: Option<bool>,
    buttonsTintColor: Option<int>,
    buttons: seq<Button>)

  /** `Button.getIcon(context, size)`: resolves the declared icon at the requested size. */
  function GetIcon(b: Button, size: int): Drawable
    requires b.HasIcon()
  {
    Drawable(b.icon.value, size)
  }

  /** No two buttons of the sequence share an id. */
  predicate UniqueIds(bs: seq<Button>) {
    forall i, j :: 0 <= i < j < |bs| ==> bs[i].id != bs[j].id
  }

  /** Radix of the item-id encoding: one more than the number of code points, so every digit is non-zero. */
  const Radix: nat := 0x11_0001

  function Digit(c: char): (d: nat)
    ensures 0 < d < Radix
  {
    c as int + 1
  }

  /**
   `Button.getItemId()`: the integer key of the button's menu item, derived from its id.
   It is written here as the bijective base-`Radix` numeral of the id's characters, which
   makes it deterministic and collision-free (see `ItemIdInjective`).
   */
  function ItemId(id: string): (n: nat)
    ensures n == 0 <==> id == []
  {
    if id == [] then 0 else ItemId(id[..|id| - 1]) * Radix + Digit(id[|id| - 1])
  }

  lemma DivModRadix(a: nat, d: nat)
    requires d < Radix
    ensures (a * Radix + d) / Radix == a
    ensures (a * Radix + d) % Radix == d
  {
  }

  /** Distinct button ids never share a menu item id. */
  lemma {:induction false} ItemIdInjective(x: string, y: string)
    requires ItemId(x) == ItemId(y)
    ensures x == y
    decreases |x|
  {
    if x != [] && y != [] {
      var x', y' := x[..|x| - 1], y[..|y| - 1];
      var cx, cy := x[|x| - 1], y[|y| - 1];
      DivModRadix(ItemId(x'), Digit(cx));
      DivModRadix(ItemId(y'), Digit(cy));
      ItemIdInjective(x', y');
      assert x == x' + [cx];
      assert y == y' + [cy];
    }
  }
}

=== FILE: toolbar.dfy ===
/**
 The toolbar widget: its style (background, title, title colour, visibility), the
 screens it was handed, and the single-flight latch that guards button setup.
 Android view calls are replaced by fields of an immutable state record.
 */
module Toolbar {
  import opened Wrappers
  import opened Screens

  /** Opaque identity of the drawable a view was constructed with. */
  type DrawableTag = nat

  /** What the toolbar is painted with: the drawable captured at construction, or a solid colour. */
  datatype Background = Captured(drawable: Option<DrawableTag>) | Solid(color: int)

  /** The inputs a button-setup task captures when it is created. */
  datatype Task = Task(oldButtons: Option<seq<Button>>, newButtons: seq<Button>, tint: Option<int>, iconSize: int)

  /** The pending-task reference: at most one setup task is in flight. */
  datatype Latch = Idle | InFlight(task: Task)

  datatype ToolbarState = ToolbarState(
    captured: Option<DrawableTag>,  // the background read once, at construction
    primaryTextColor: int,          // the platform's primary text colour for this context
    background: Background,
    titleColor: int,
    shown: bool,                    // visibility of the action bar
    title: Option<string>,
    actionBarBound: bool,           // the activity uses this toolbar as its support action bar
    screens: seq<Screen>,
    latch: Latch,
    overflowTint: Option<int>)      // tint applied to the overflow ("more") icon

  /** The toolbar as constructed: it remembers its own background and has no task pending. */
  function Init(background: Option<DrawableTag>, primaryTextColor: int, titleColor: int, shown: bool): (t: ToolbarState)
    ensures t.background == Captured(t.captured)
    ensures t.captured == background && t.primaryTextColor == primaryTextColor
    ensures t.latch == Idle
  {
    ToolbarState(background, primaryTextColor, Captured(background), titleColor, shown, None, false, [], Idle, None)
  }

  /** Hands the toolbar the screens of its activity; nothing else changes. */
  function SetScreens(t: ToolbarState, screens: seq<Screen>): (r: ToolbarState)
    ensures r.screens == screens
    ensures r.(screens := t.screens) == t
  {
    t.(screens := screens)
  }

  /** Fields no style call touches. */
  predicate SameChrome(t: ToolbarState, u: ToolbarState) {
    && t.captured == u.captured
    && t.primaryTextColor == u.primaryTextColor
    && t.title == u.title
    && t.actionBarBound == u.actionBarBound
    && t.screens == u.screens
    && t.latch == u.latch
    && t.overflowTint == u.overflowTint
  }

  /** Puts back the background captured at construction. */
  function ResetBackground(t: ToolbarState): (r: ToolbarState)
    ensures r.background == Captured(t.captured)
    ensures SameChrome(t, r) && r.titleColor == t.titleColor && r.shown == t.shown
  {
    t.(background := Captured(t.captured))
  }

  /** Puts back the platform's primary text colour. */
  function ResetTitleTextColor(t: ToolbarState): (r: ToolbarState)
    ensures r.titleColor == t.primaryTextColor
    ensures SameChrome(t, r) && r.background == t.background && r.shown == t.shown
  {
    t.(titleColor := t.primaryTextColor)
  }

  /** Shows or hides the activity's support action bar; without one, nothing of this toolbar changes. */
  function SetShown(t: ToolbarState, shown: bool): (r: ToolbarState)
    ensures t.actionBarBound ==> r.shown == shown
    ensures !t.actionBarBound ==> r == t
    ensures r.(shown := t.shown) == t
  {
    if t.actionBarBound then t.(shown := shown) else t
  }

  /** Applies a screen's optional style fields, falling back to the construction-time defaults. */
  function SetStyle(t: ToolbarState, s: Screen): (r: ToolbarState)
    ensures SameChrome(t, r)
  {
    var withBackground := if s.toolBarColor.Some? then t.(background := Solid(s.toolBarColor.value)) else ResetBackground(t);
    var withTitleColor := if s.titleColor.Some? then withBackground.(titleColor := s.titleColor.value) else ResetTitleTextColor(withBackground);
    SetShown(withTitleColor, !(s.toolBarHidden.Some? && s.toolBarHidden.value))
  }

  /** Makes the toolbar the support action bar, sets the title verbatim, then applies the style. */
  function Update(t: ToolbarState, s: Screen): (r: ToolbarState)
    ensures r.captured == t.captured && r.primaryTextColor == t.primaryTextColor
    ensures r.latch == t.latch && r.screens == t.screens && r.overflowTint == t.overflowTint
  {
    SetStyle(t.(actionBarBound := true, title := Some(s.title)), s)
  }

  /** What the user sees of the toolbar's style. */
  datatype Look = Look(background: Background, titleColor: int, shown: bool, title: Option<string>)

  function LookOf(t: ToolbarState): Look {
    Look(t.background, t.titleColor, t.shown, t.title)
  }

  /** The background is the screen's colour when it has one, otherwise the construction-time drawable. */
  lemma StyleBackground(t: ToolbarState, s: Screen)
    ensures SetStyle(t, s).background == if s.toolBarColor.Some? then Solid(s.toolBarColor.value) else Captured(t.captured)
  {
  }

  /** The title colour is the screen's colour when it has one, otherwise the platform default. */
  lemma StyleTitleColor(t: ToolbarState, s: Screen)
    ensures SetStyle(t, s).titleColor == if s.titleColor.Some? then s.titleColor.value else t.primaryTextColor
  {
  }

  /** With the toolbar bound as action bar, it is hidden exactly when the screen's hidden flag is present and true. */
  lemma StyleVisibility(t: ToolbarState, s: Screen)
    ensures t.actionBarBound ==> (!SetStyle(t, s).shown <==> s.toolBarHidden == Some(true))
    ensures !t.actionBarBound ==> SetStyle(t, s).shown == t.shown
  {
  }

  /** Applying the same screen's style twice is the same as applying it once. */
  lemma SetStyleIdempotent(t: ToolbarState, s: Screen)
    ensures SetStyle(SetStyle(t, s), s) == SetStyle(t, s)
  {
  }

  /** `update` shows the screen's title verbatim and hides the bar exactly when the screen asks. */
  lemma UpdateTitleAndVisibility(t: ToolbarState, s: Screen)
    ensures Update(t, s).title == Some(s.title)
    ensures !Update(t, s).shown <==> s.toolBarHidden == Some(true)
    ensures Update(Update(t, s), s) == Update(t, s)
  {
  }

  /** Updating the toolbar for each screen in turn, as navigation does. */
  function Visit(t: ToolbarState, screens: seq<Screen>): ToolbarState
    decreases |screens|
  {
    if screens == [] then t else Visit(Update(t, screens[0]), screens[1..])
  }

  lemma {:induction false} VisitKeepsDefaults(t: ToolbarState, screens: seq<Screen>)
    ensures Visit(t, screens).captured == t.captured
    ensures Visit(t, screens).primaryTextColor == t.primaryTextColor
    decreases |screens|
  {
    if screens != [] {
      VisitKeepsDefaults(Update(t, screens[0]), screens[1..]);
    }
  }

  /**
   Whatever sequence of updates came before, updating for `s` looks exactly as it would on
   the freshly constructed toolbar: resets go back to the construction-time background and
   the platform title colour. This treats the captured background as an unchanging copy;
   `AliasedResetShowsEarlierColour` shows what happens when it is the live drawable instead.
   */
  lemma {:induction false} LookIndependentOfHistory(t: ToolbarState, history: seq<Screen>, s: Screen)
    ensures LookOf(Update(Visit(t, history), s)) == LookOf(Update(t, s))
    ensures s.toolBarColor.None? ==> Update(Visit(t, history), s).background == Captured(t.captured)
  {
    VisitKeepsDefaults(t, history);
    UpdateLookFromDefaults(Visit(t, history), t, s);
  }

  /**
   A toolbar as constructed: after any sequence of updates, updating for `s` looks as it
   would straight after construction, and without a screen colour the background is the
   one read at construction.
   */
  lemma FreshToolbarLook(background: Option<DrawableTag>, primaryTextColor: int, titleColor: int, shown: bool, history: seq<Screen>, s: Screen)
    ensures var t := Init(background, primaryTextColor, titleColor, shown);
      && LookOf(Update(Visit(t, history), s)) == LookOf(Update(t, s))
      && (s.toolBarColor.None? ==> Update(Visit(t, history), s).background == Captured(background))
  {
    LookIndependentOfHistory(Init(background, primaryTextColor, titleColor, shown), history, s);
  }

  /** The look after `update` depends only on the screen and the two construction-time defaults. */
  lemma UpdateLookFromDefaults(u: ToolbarState, t: ToolbarState, s: Screen)
    requires u.captured == t.captured && u.primaryTextColor == t.primaryTextColor
    ensures LookOf(Update(u, s)) == LookOf(Update(t, s))
    ensures s.toolBarColor.None? ==> Update(u, s).background == Captured(t.captured)
  {
    var u', t' := u.(actionBarBound := true, title := Some(s.title)), t.(actionBarBound := true, title := Some(s.title));
    StyleBackground(u', s);
    StyleBackground(t', s);
    StyleTitleColor(u', s);
    StyleTitleColor(t', s);
    StyleVisibility(u', s);
    StyleVisibility(t', s);
  }

  /** One request for button setup, as made by a caller of `setupToolbarButtonsAsync`. */
  datatype Request = Request(oldScreen: Option<Screen>, newScreen: Screen, iconSize: int)

  /** The task created for a request: old buttons (absent for a null old screen), new buttons and tint. */
  function TaskFor(oldScreen: Option<Screen>, newScreen: Screen, iconSize: int): (task: Task)
    ensures task.oldButtons.None? <==> oldScreen.None?
    ensures oldScreen.Some? ==> task.oldButtons == Some(oldScreen.value.buttons)
    ensures task.newButtons == newScreen.buttons && task.tint == newScreen.buttonsTintColor
    ensures task.iconSize == iconSize
  {
    Task(if oldScreen.Some? then Some(oldScreen.value.buttons) else None, newScreen.buttons, newScreen.buttonsTintColor, iconSize)
  }

  /** Starts a setup task only when none is pending; otherwise the request is dropped. */
  function SetupToolbarButtonsAsync(t: ToolbarState, oldScreen: Option<Screen>, newScreen: Screen, iconSize: int): (r: ToolbarState)
    ensures t.latch.InFlight? ==> r == t
    ensures t.latch.Idle? ==> r.latch.InFlight? && r.(latch := Idle) == t
    ensures r.latch.InFlight?
    ensures t.latch.Idle? ==> r.latch.task.newButtons == newScreen.buttons && r.latch.task.tint == newScreen.buttonsTintColor
    ensures t.latch.Idle? ==> (r.latch.task.oldButtons.None? <==> oldScreen.None?)
    ensures t.latch.Idle? && oldScreen.Some? ==> r.latch.task.oldButtons == Some(oldScreen.value.buttons)
    ensures t.latch.Idle? ==> r.latch.task.iconSize == iconSize
  {
    if t.latch.Idle? then t.(latch := InFlight(TaskFor(oldScreen, newScreen, iconSize))) else t
  }

  /** The one-argument overload: the old screen is null, so the whole menu will be cleared. */
  function SetupToolbarButtonsAsyncFor(t: ToolbarState, newScreen: Screen, iconSize: int): (r: ToolbarState)
    ensures t.latch.Idle? ==> r == t.(latch := InFlight(Task(None, newScreen.buttons, newScreen.buttonsTintColor, iconSize)))
    ensures t.latch.InFlight? ==> r == t
  {
    SetupToolbarButtonsAsync(t, None, newScreen, iconSize)
  }

  /** Requests buttons for the first screen handed to the toolbar, with a null old screen. */
  function HandleOnCreateOptionsMenuAsync(t: ToolbarState, iconSize: int): (r: ToolbarState)
    requires |t.screens| > 0
    ensures t.latch.Idle? ==> r == t.(latch := InFlight(Task(None, t.screens[0].buttons, t.screens[0].buttonsTintColor, iconSize)))
    ensures t.latch.InFlight? ==> r == t
  {
    SetupToolbarButtonsAsync(t, None, t.screens[0], iconSize)
  }

  /** Once the screens are handed over, the options-menu request is for the first of them. */
  lemma OptionsMenuUsesFirstScreen(t: ToolbarState, screens: seq<Screen>, iconSize: int)
    requires |screens| > 0
    ensures var r := HandleOnCreateOptionsMenuAsync(SetScreens(t, screens), iconSize);
      r.latch == if t.latch.Idle? then InFlight(TaskFor(None, screens[0], iconSize)) else t.latch
  {
  }

  /** Updates the style for the screen, then requests its buttons with a null old screen. */
  function UpdateAndSetButtons(t: ToolbarState, s: Screen, iconSize: int): (r: ToolbarState)
    ensures LookOf(r) == LookOf(Update(t, s))
    ensures t.latch.Idle? ==> r.latch == InFlight(Task(None, s.buttons, s.buttonsTintColor, iconSize))
    ensures t.latch.InFlight? ==> r.latch == t.latch
    ensures r.(latch := Update(t, s).latch) == Update(t, s)
  {
    SetupToolbarButtonsAsyncFor(Update(t, s), s, iconSize)
  }

  /** Issues the requests one after another, none of them completing in between. */
  function Requests(t: ToolbarState, reqs: seq<Request>): ToolbarState
    decreases |reqs|
  {
    if reqs == [] then t
    else Requests(SetupToolbarButtonsAsync(t, reqs[0].oldScreen, reqs[0].newScreen, reqs[0].iconSize), reqs[1..])
  }

  /** While a task is pending, every further request is dropped and the pending (old, new) pair is kept. */
  lemma {:induction false} PendingDropsRequests(t: ToolbarState, reqs: seq<Request>)
    requires t.latch.InFlight?
    ensures Requests(t, reqs) == t
    decreases |reqs|
  {
    if reqs != [] {
      PendingDropsRequests(SetupToolbarButtonsAsync(t, reqs[0].oldScreen, reqs[0].newScreen, reqs[0].iconSize), reqs[1..]);
    }
  }

  /** Of a burst of requests on an idle toolbar, exactly the first one creates a task. */
  lemma {:induction false} FirstRequestWins(t: ToolbarState, reqs: seq<Request>)
    requires t.latch.Idle? && |reqs| > 0
    ensures Requests(t, reqs) == t.(latch := InFlight(TaskFor(reqs[0].oldScreen, reqs[0].newScreen, reqs[0].iconSize)))
  {
    PendingDropsRequests(SetupToolbarButtonsAsync(t, reqs[0].oldScreen, reqs[0].newScreen, reqs[0].iconSize), reqs[1..]);
  }

  /**
   The background as written, where `mBackground` is a reference to the live drawable and
   not a copy. `capturedColor` is the colour of the captured drawable when it is a
   plain-colour drawable (absent for any other drawable, or none); `showsCaptured` says
   whether that drawable is on display; otherwise a plain-colour drawable of `otherColor` is.
   */
  datatype LiveBackground = LiveBackground(capturedColor: Option<int>, showsCaptured: bool, otherColor: int)

  /** What the user sees as background: a colour, or the non-colour drawable of construction. */
  datatype Paint = Colour(color: int) | ConstructionArtwork

  function Painted(b: LiveBackground): Paint {
    if !b.showsCaptured then Colour(b.otherColor)
    else if b.capturedColor.Some? then Colour(b.capturedColor.value)
    else ConstructionArtwork
  }

  /**
   `setBackgroundColor`: a plain-colour background on display is recoloured in place (the
   captured one included); any other background is replaced by a new plain-colour drawable.
   */
  function SetBackgroundColorAliased(b: LiveBackground, c: int): LiveBackground {
    if b.showsCaptured && b.capturedColor.Some? then b.(capturedColor := Some(c))
    else b.(showsCaptured := false, otherColor := c)
  }

  /** The background part of `setStyle` as written: colour the live drawable, or put back `mBackground`. */
  function StyleBackgroundAliased(b: LiveBackground, s: Screen): LiveBackground {
    if s.toolBarColor.Some? then SetBackgroundColorAliased(b, s.toolBarColor.value)
    else b.(showsCaptured := true)
  }

  /**
   As written, on a toolbar constructed with a plain-colour background `c0`, a screen with
   its own toolbar colour followed by one without shows the first screen's colour again,
   where a fresh toolbar shows `c0`.
   */
  lemma AliasedResetShowsEarlierColour(c0: int, s1: Screen, s2: Screen)
    requires s1.toolBarColor.Some? && s1.toolBarColor.value != c0 && s2.toolBarColor.None?
    ensures var initial := LiveBackground(Some(c0), true, 0);
      && Painted(StyleBackgroundAliased(StyleBackgroundAliased(initial, s1), s2)) == Colour(s1.toolBarColor.value)
      && Painted(StyleBackgroundAliased(initial, s2)) == Colour(c0)
  {
  }
}

=== FILE: wrappers.dfy ===
/** Optional values, standing in for the nullable fields and references of the toolbar code. */
module Wrappers {

  /** `None` plays the part of a Java `null`. */
  datatype Option<+T> = None | Some(value: T) {

    /** The encapsulated value, or `default` when there is none. */
    function GetOr(default: T): T {
      match this
      case Some(v) => v
      case None() => default
    }
  }
}
